=== FILE: README.md ===
# Channel actor bookkeeping — a Dafny model

This project models the deterministic core of the channel actor of an agentic
chat assistant (`src/agent/channel.rs`). A channel is the user-facing
conversation process: it receives inbound chat messages, attributes each one
to its sender, captures the conversation id and a short conversation-context
block from the first message, assembles the system prompt for each turn,
admits "branches" (background thinking processes) up to a concurrency limit,
and reacts to process events — branch results and worker completions — by
updating its active sets, appending a tagged line to the history and, when
asked, re-triggering itself with a synthetic system message.

The model is functional: an immutable `Channel.State` record and pure
transition functions, plus string builders over `seq<char>` and a metadata map
of JSON values. One message or event is handled at a time.

Files:

- `wrappers.dfy` — `Option` and `Result`.
- `text.dfy` — `join`, as the conversation context is built, plus split and
  index helpers that state its inverse.
- `inbound.dfy` — inbound messages, metadata lookup, sender attribution and
  the conversation-context block.
- `system_prompt.dfy` — assembly of the per-turn system prompt, and an
  independent section-list description proved equal to it.
- `channel.dfy` — channel state, first-message capture, turn preparation,
  branch admission, event handling, the worker outcome mapping, and lemmas
  over arbitrary sequences of steps.

Inputs that come from outside the modelled code are parameters: branch and
worker ids (UUIDs), the rendered status-block text (an opaque string), and a
worker's outcome (`Result<string, string>`, the error given by its display
text).

## Model

| member | source | states |
|---|---|---|
| `Inbound.MetadataStr` | src/agent/channel.rs:484-486 | a metadata key yields a value exactly when it is present and holds a JSON string, and then it is that string |
| `Inbound.RawText` | src/agent/channel.rs:180-183 | the raw text is the text content, or the media caption, or the empty string when media has no caption |
| `Inbound.DisplayName` | src/agent/channel.rs:484-487 | the attributed name is the display-name metadata when it is a string, the sender id otherwise |
| `Inbound.FormatUserMessage` | src/agent/channel.rs:479-490 | a system-source message passes through verbatim; any other is `[name]: ` followed by the raw text, four characters longer than name and text together |
| `Inbound.ParseAttributionRoundTrip` | src/agent/channel.rs:489 | for a name without `]`, the attributed line parses back to exactly that name and text |
| `Inbound.ParseAttributionSound` | src/agent/channel.rs:489 | whatever parses as an attribution is exactly the attribution of its parsed name and text, with a bracket-free name |
| `Inbound.AttributionAmbiguous` | src/agent/channel.rs:479-490 | for two non-system messages, if one sender's display name is the other's followed by `]: ` and some text, the first sender's message formats to the same line as the second sender writing that text and `]: ` in front of it, so one user can appear to quote another |
| `Inbound.FormatUserMessageRecoverable` | src/agent/channel.rs:479-490 | a non-system message's formatted text determines its sender's display name and raw text when the display name holds no `]` |
| `Inbound.ContextLines` | src/agent/channel.rs:497-509 | the context lines are the platform line first, a server line exactly when the guild name is a string, a `#`-prefixed channel line exactly when the channel name is a string, and the multi-user notice last |
| `Inbound.BuildConversationContext` | src/agent/channel.rs:496-512 | the context starts with the platform line and a newline, ends with a newline and the notice, and has no trailing newline |
| `Inbound.ContextLinesRecoverable` | src/agent/channel.rs:496-511 | when platform and names are newline-free, splitting the context on newlines gives back exactly its lines in order |
| `SystemPrompt.AssembleSystemPrompt` | src/agent/channel.rs:198-211 | the prompt starts with identity and a blank line only when identity is non-empty (else with the channel prompt), ends with the status section when status is non-empty, and its length counts each optional section exactly when present |
| `SystemPrompt.PromptSections` | src/agent/channel.rs:198-211 | the section list holds the channel prompt always, identity first only when non-empty, the context section only when given, and the status section last only when non-empty |
| `SystemPrompt.AssembleIsSectionJoin` | src/agent/channel.rs:198-211 | the assembled prompt equals its sections joined by blank lines: nothing dropped, repeated, reordered or dangling |
| `Channel.CaptureFirstMessage` | src/agent/channel.rs:175-191 | after a message both conversation id and context are set; if already set they are unchanged, otherwise they come from this message; history and active sets are untouched |
| `Channel.CaptureIdempotent` | src/agent/channel.rs:176-191 | once one message has been captured, no later message changes the captured id or context |
| `Channel.PrepareTurn` | src/agent/channel.rs:168-211 | a turn attributes the message's raw text, and its prompt is the section join with the context captured for the channel, which is always present |
| `Channel.PromptCarriesFirstContext` | src/agent/channel.rs:188-207 | on a channel's first message the prompt's context section is the context built from that message |
| `Channel.SpawnBranch` | src/agent/channel.rs:352-405 | admission fails with the branch-limit error carrying channel id and limit exactly when the active count is at least the limit; on success only the new id is added, the branch gets the current history, and the count stays within the limit |
| `Channel.HandleEvent` | src/agent/channel.rs:280-341 | a branch result removes that branch and appends one `[Branch result]: ` line; a worker completion removes that worker and appends one `[Worker completed]: ` line only when notifying; any other event changes nothing; a re-trigger is emitted exactly when one was requested and the conversation id is known, and it is `RetriggerMessage`: source and sender `system`, the captured conversation id, the fixed re-trigger text, no metadata |
| `Channel.RetriggerIsUnattributed` | src/agent/channel.rs:321-334 | the synthetic re-trigger message is handled without attribution and leaves the captured id and context as they were |
| `Channel.WorkerOutcomeEvent` | src/agent/channel.rs:437-461 | a finished worker always yields a notifying completion for its id, tagged with the agent id and this channel's id, with its text on success and `Worker failed: ` followed by the error otherwise |
| `Channel.WorkerOutcomeAlwaysReported` | src/agent/channel.rs:304-322 | every finished worker leaves the active set, adds exactly one `[Worker completed]: ` history line after the old history, and re-triggers exactly when the conversation id is known |
| `Channel.RunKeepsBranchBound` | src/agent/channel.rs:359-396 | in any sequential run starting within the branch limit, the active-branch count never exceeds it |
| `Channel.ForeignBranchResult` | src/agent/channel.rs:290-300 | a branch result for an id that is not active leaves the active branches unchanged but still appends its `[Branch result]: ` line and re-triggers exactly when the conversation id is known |
| `Channel.RunKeepsCaptureConsistent` | src/agent/channel.rs:175-191 | conversation id and context are always either both captured or both absent |
| `Channel.RunKeepsCapture` | src/agent/channel.rs:176-191 | once captured, conversation id and context survive every later step unchanged |
| `Channel.FirstMessageWins` | src/agent/channel.rs:176-191 | from a fresh channel, the first message's conversation id and context are those of the channel for the rest of any run |
| `Channel.RunHistoryAppendOnly` | src/agent/channel.rs:289-313 | the channel's own bookkeeping only appends to the history |
| `Channel.RunNeverAddsWorkers` | src/agent/channel.rs:304-473 | no step of the channel adds an id to the active-worker set |

## Left out

- The asynchronous event loop (`tokio::select!`), the message and event channels, the read-write locks and task spawning: the model handles one message or event at a time.
- The admission race: the limit is checked and the new id inserted under separate lock acquisitions, so two admissions running concurrently could both pass the check and exceed the limit. A model that handles one step at a time cannot interleave them. The model's step order also allows a branch's result to be handled before its id is inserted, which would leave the id active for good, since a result for an absent id changes no active set (`Channel.ForeignBranchResult`). `src/agent/channel.rs` does not produce that order: a branch spawned from the channel's own turn does not reach the insert (394-395) while the turn runs, because its history read (371) waits on the write lock the turn holds from 240 to 245, and the event loop takes the next event only after the turn. Reaching it would need `spawn_branch_from_state` called outside the channel's turn.
- The language-model turn itself (agent construction, model routing, `prompt` with the history, hooks, max-turn handling), adding and removing the per-turn tools, and the fallback reply: foreign calls whose behaviour is not visible here. `Channel.PrepareTurn` stops at the user text and system prompt handed to the model, so the history entries the model turn writes are not modelled.
- The status block (`update`, `render`, `add_branch`, `add_worker`) and the internals of `Worker` and `Branch`: they are defined elsewhere; the rendered status is an opaque input string.
- UUID generation, timestamps, tracing, and the failure of a full re-trigger queue (`try_send`): ids are parameters, the re-trigger is modelled as emitted.
- Follow-up routing to interactive workers: the input sender is discarded in `spawn_worker_from_state`, so there is nothing to model; interactive and plain workers differ only in construction, which is not part of this model.
- The worker itself (`Worker::run`, defined outside `src/agent/channel.rs`) is not modelled; a finished worker enters the model only through its outcome.
- Event tags: `handle_event` ignores a worker completion's agent and channel tags, so a channel records every completion it receives, including ones tagged for another channel. The model keeps the tags on the event and, like the source, never reads them. Branch results carry further fields that `handle_event` also ignores; they are left out.
- History entries are modelled as the text of a user message; the message type of the model library is not modelled.
- Active sets are sets of ids; the join handles and worker values stored in the source's maps are not modelled.
- `Channel.RunNeverAddsWorkers` records that, in this code, spawning a worker does not register it in the active-worker set; whether another component does is not visible here.

=== FILE: channel.dfy ===
/** The channel actor's bookkeeping, one message or event at a time: capture of
    the first message's conversation id and context, preparation of a turn
    (user text and system prompt), branch admission against the concurrency
    limit, process-event handling with its history entries and re-trigger
    decision, and the mapping of a finished worker to its completion event. */
module Channel {
  import opened Wrappers
  import opened Text
  import opened Inbound
  import opened SystemPrompt

  /** Branch and worker ids are UUIDs generated outside the logic modelled
      here; they arrive as parameters. */
  type BranchId = nat
  type WorkerId = nat

  /** The parts of a channel fixed at construction. */
  datatype Setup = Setup(
    agentId: string,
    channelId: string,
    identityContext: string,
    systemPrompt: string,
    maxConcurrentBranches: nat)

  /** The channel's mutable state: the history (each entry a user message's
      text), the ids of running branches and workers, and what was captured
      from the first message. */
  datatype State = State(
    history: seq<string>,
    activeBranches: set<BranchId>,
    activeWorkers: set<WorkerId>,
    conversationId: Option<string>,
    conversationContext: Option<string>)

  /** A freshly constructed channel. */
  const Initial := State([], {}, {}, None, None)

  /** The conversation id and context are captured by the same handler, so a
      channel either has both or neither. */
  predicate CaptureConsistent(st: State) {
    st.conversationId.Some? == st.conversationContext.Some?
  }

  /** Process events delivered to the channel. Events other than a branch
      result or a worker completion only feed the status block. A worker
      completion is tagged with the agent and, optionally, the channel it
      belongs to; the channel does not read these tags. */
  datatype ProcessEvent =
    | BranchResult(branchId: BranchId, conclusion: string)
    | WorkerComplete(
        agentId: string, workerId: WorkerId, channelId: Option<string>, result: string, notify: bool)
    | OtherEvent

  datatype AgentError = BranchLimitReached(channelId: string, max: nat)

  const BranchResultTag := "[Branch result]: "
  const WorkerCompletedTag := "[Worker completed]: "
  const WorkerFailedPrefix := "Worker failed: "
  const RetriggerText :=
    "[System: a background process has completed. "
    + "Check your history and status block for the result, then respond to the user.]"

  // ---------------------------------------------------------------------------
  // Messages

  /** Records the conversation id and context of the first message; once set,
      neither is ever replaced. */
  function CaptureFirstMessage(st: State, msg: InboundMessage): (st': State)
    ensures st'.conversationId.Some? && st'.conversationContext.Some?
    ensures st.conversationId.Some? ==> st'.conversationId == st.conversationId
    ensures st.conversationId.None? ==> st'.conversationId == Some(msg.conversationId)
    ensures st.conversationContext.Some? ==> st'.conversationContext == st.conversationContext
    ensures st.conversationContext.None? ==>
              st'.conversationContext == Some(BuildConversationContext(msg))
    ensures st'.history == st.history
    ensures st'.activeBranches == st.activeBranches && st'.activeWorkers == st.activeWorkers
  {
    var st1 := if st.conversationId.None? then st.(conversationId := Some(msg.conversationId)) else st;
    if st1.conversationContext.None? then st1.(conversationContext := Some(BuildConversationContext(msg)))
    else st1
  }

  /** Capturing is idempotent: after one message, no other message changes
      the state. */
  lemma CaptureIdempotent(st: State, first: InboundMessage, later: InboundMessage)
    ensures CaptureFirstMessage(CaptureFirstMessage(st, first), later)
            == CaptureFirstMessage(st, first)
  {
  }

  /** What a turn hands to the language model: the attributed user text and
      the system prompt, together with the state after capture. */
  datatype Turn = Turn(state: State, userText: string, systemPrompt: string)

  /** The deterministic part of handling a message, up to the model call:
      capture, attribution of the raw text, and prompt assembly with the
      opaque rendered status text. */
  function PrepareTurn(setup: Setup, st: State, msg: InboundMessage, statusText: string): (t: Turn)
    ensures t.state == CaptureFirstMessage(st, msg)
    ensures t.userText == FormatUserMessage(RawText(msg.content), msg)
    ensures t.state.conversationContext.Some?
    ensures t.systemPrompt
            == JoinWith(SectionBreak, PromptSections(setup.identityContext, setup.systemPrompt,
                                                     t.state.conversationContext, statusText))
  {
    var st' := CaptureFirstMessage(st, msg);
    AssembleIsSectionJoin(setup.identityContext, setup.systemPrompt, st'.conversationContext, statusText);
    Turn(st',
         FormatUserMessage(RawText(msg.content), msg),
         AssembleSystemPrompt(setup.identityContext, setup.systemPrompt, st'.conversationContext, statusText))
  }

  /** Every turn's prompt carries a conversation-context section, and it is the
      context built from the first message the channel saw. */
  lemma PromptCarriesFirstContext(
    setup: Setup, st: State, msg: InboundMessage, statusText: string)
    requires st.conversationContext.None?
    ensures var t := PrepareTurn(setup, st, msg, statusText);
            var secs := PromptSections(setup.identityContext, setup.systemPrompt,
                                       t.state.conversationContext, statusText);
            secs[if setup.identityContext != "" then 2 else 1]
              == ContextHeading + BuildConversationContext(msg)
  {
  }

  // ---------------------------------------------------------------------------
  // Branches

  /** A successful admission: the new state, the branch id, and the history
      snapshot the branch starts from. */
  datatype Admission = Admission(state: State, branchId: BranchId, branchHistory: seq<string>)

  /** Admits a branch with the freshly generated id `newId` unless the channel
      already runs its maximum number of branches. */
  function SpawnBranch(setup: Setup, st: State, newId: BranchId): (r: Result<Admission, AgentError>)
    ensures r.Err? <==> |st.activeBranches| >= setup.maxConcurrentBranches
    ensures r.Err? ==> r.error == BranchLimitReached(setup.channelId, setup.maxConcurrentBranches)
    ensures r.Ok? ==> r.value.branchId == newId
    ensures r.Ok? ==> r.value.state.activeBranches == st.activeBranches + {newId}
    ensures r.Ok? ==> r.value.state == st.(activeBranches := r.value.state.activeBranches)
    ensures r.Ok? ==> r.value.branchHistory == st.history
    ensures r.Ok? && newId !in st.activeBranches ==>
              |r.value.state.activeBranches| == |st.activeBranches| + 1
    ensures r.Ok? ==> |r.value.state.activeBranches| <= setup.maxConcurrentBranches
  {
    if |st.activeBranches| >= setup.maxConcurrentBranches then
      Err(BranchLimitReached(setup.channelId, setup.maxConcurrentBranches))
    else
      Ok(Admission(st.(activeBranches := st.activeBranches + {newId}), newId, st.history))
  }

  // ---------------------------------------------------------------------------
  // Process events

  /** The result of handling one event: the new state and, if one is sent,
      the synthetic message that re-triggers the channel. */
  datatype EventOutcome = EventOutcome(state: State, retrigger: Option<InboundMessage>)

  /** The synthetic message that re-triggers the channel after a background
      process has completed. Its id and timestamp are left out. */
  function RetriggerMessage(conversationId: string): InboundMessage {
    InboundMessage(SystemSource, conversationId, SystemSource, Text(RetriggerText), map[])
  }

  /** Whether an event asks for the channel to be re-triggered. */
  predicate RequestsRetrigger(ev: ProcessEvent) {
    ev.BranchResult? || (ev.WorkerComplete? && ev.notify)
  }

  /** Bookkeeping for one process event. */
  function HandleEvent(st: State, ev: ProcessEvent): (out: EventOutcome)
    ensures ev.BranchResult? ==>
              && out.state.activeBranches == st.activeBranches - {ev.branchId}
              && out.state.history == st.history + [BranchResultTag + ev.conclusion]
              && out.state.activeWorkers == st.activeWorkers
    ensures ev.WorkerComplete? ==>
              && out.state.activeWorkers == st.activeWorkers - {ev.workerId}
              && out.state.activeBranches == st.activeBranches
              && out.state.history
                 == st.history + (if ev.notify then [WorkerCompletedTag + ev.result] else [])
    ensures ev.OtherEvent? ==> out.state == st
    ensures out.state.conversationId == st.conversationId
    ensures out.state.conversationContext == st.conversationContext
    ensures out.retrigger.Some? <==> RequestsRetrigger(ev) && st.conversationId.Some?
    ensures out.retrigger.Some? ==> out.retrigger.value == RetriggerMessage(st.conversationId.value)
  {
    var st' :=
      match ev
      case BranchResult(id, conclusion) =>
        st.(activeBranches := st.activeBranches - {id},
            history := st.history + [BranchResultTag + conclusion])
      case WorkerComplete(_, id, _, result, notify) =>
        st.(activeWorkers := st.activeWorkers - {id},
            history := if notify then st.history + [WorkerCompletedTag + result] else st.history)
      case OtherEvent => st;
    var retrigger :=
      if RequestsRetrigger(ev) && st.conversationId.Some? then Some(RetriggerMessage(st.conversationId.value))
      else None;
    EventOutcome(st', retrigger)
  }

  /** A re-trigger is handled like any message, but it is not attributed, and
      it changes neither the captured conversation id nor the context. */
  lemma RetriggerIsUnattributed(setup: Setup, st: State, ev: ProcessEvent, statusText: string)
    requires CaptureConsistent(st)
    requires HandleEvent(st, ev).retrigger.Some?
    ensures var out := HandleEvent(st, ev);
            var t := PrepareTurn(setup, out.state, out.retrigger.value, statusText);
            t.userText == RetriggerText && t.state == out.state
  {
  }

  // ---------------------------------------------------------------------------
  // Workers

  /** The completion event a finished worker sends: always notifying, carrying
      the worker's text on success and a failure description otherwise. */
  function WorkerOutcomeEvent(setup: Setup, workerId: WorkerId, outcome: Result<string, string>)
    : (ev: ProcessEvent)
    ensures ev.WorkerComplete? && ev.workerId == workerId && ev.notify
    ensures ev.agentId == setup.agentId && ev.channelId == Some(setup.channelId)
    ensures outcome.Ok? ==> ev.result == outcome.value
    ensures outcome.Err? ==> StartsWith(ev.result, WorkerFailedPrefix)
    ensures outcome.Err? ==> ev.result[|WorkerFailedPrefix|..] == outcome.error
  {
    match outcome
    case Ok(text) => WorkerComplete(setup.agentId, workerId, Some(setup.channelId), text, true)
    case Err(e) =>
      WorkerComplete(setup.agentId, workerId, Some(setup.channelId), WorkerFailedPrefix + e, true)
  }

  /** Every finished worker, successful or not, is removed from the active set
      and leaves exactly one history entry, and the channel is re-triggered
      whenever it knows its conversation. */
  lemma WorkerOutcomeAlwaysReported(
    setup: Setup, st: State, workerId: WorkerId, outcome: Result<string, string>)
    ensures var out := HandleEvent(st, WorkerOutcomeEvent(setup, workerId, outcome));
            && workerId !in out.state.activeWorkers
            && |out.state.history| == |st.history| + 1
            && out.state.history[..|st.history|] == st.history
            && StartsWith(out.state.history[|st.history|], WorkerCompletedTag)
            && (out.retrigger.Some? <==> st.conversationId.Some?)
  {
  }

  // ---------------------------------------------------------------------------
  // Sequences of steps

  /** One thing that can happen to a channel. Spawning a worker touches no
      channel state in this code: it neither records the worker as active nor
      changes the history. */
  datatype Step =
    | Receive(msg: InboundMessage, statusText: string)
    | Branch(branchId: BranchId)
    | SpawnWorker(workerId: WorkerId)
    | Event(ev: ProcessEvent)

  function Apply(setup: Setup, st: State, step: Step): State {
    match step
    case Receive(msg, statusText) => PrepareTurn(setup, st, msg, statusText).state
    case Branch(id) =>
      (match SpawnBranch(setup, st, id)
       case Ok(admission) => admission.state
       case Err(_) => st)
    case SpawnWorker(_) => st
    case Event(ev) => HandleEvent(st, ev).state
  }

  function Run(setup: Setup, st: State, steps: seq<Step>): State
    decreases |steps|
  {
    if |steps| == 0 then st else Run(setup, Apply(setup, st, steps[0]), steps[1..])
  }

  /** The concurrency limit on branches holds at every point of any sequential
      run that starts within it. */
  lemma {:induction false} RunKeepsBranchBound(setup: Setup, st: State, steps: seq<Step>)
    requires |st.activeBranches| <= setup.maxConcurrentBranches
    ensures |Run(setup, st, steps).activeBranches| <= setup.maxConcurrentBranches
    decreases |steps|
  {
    if |steps| > 0 {
      var next := Apply(setup, st, steps[0]);
      if steps[0].Event? {
        assert next.activeBranches <= st.activeBranches;
        SubsetCardinality(next.activeBranches, st.activeBranches);
      }
      RunKeepsBranchBound(setup, next, steps[1..]);
    }
  }

  /** A branch result for an id that is not active (one never admitted here,
      or already finished) leaves the active branches as they are, yet still
      adds its history line and asks for a re-trigger: removing an absent key
      is a no-op. */
  lemma ForeignBranchResult(st: State, b: BranchId, conclusion: string)
    requires b !in st.activeBranches
    ensures var out := HandleEvent(st, BranchResult(b, conclusion));
            && out.state.activeBranches == st.activeBranches
            && out.state.history == st.history + [BranchResultTag + conclusion]
            && (out.retrigger.Some? <==> st.conversationId.Some?)
  {
  }

  lemma SubsetCardinality<T>(a: set<T>, b: set<T>)
    requires a <= b
    ensures |a| <= |b|
  {
    assert b == a + (b - a);
  }

  /** Every run from a consistent state stays consistent. */
  lemma {:induction false} RunKeepsCaptureConsistent(setup: Setup, st: State, steps: seq<Step>)
    requires CaptureConsistent(st)
    ensures CaptureConsistent(Run(setup, st, steps))
    decreases |steps|
  {
    if |steps| > 0 {
      RunKeepsCaptureConsistent(setup, Apply(setup, st, steps[0]), steps[1..]);
    }
  }

  /** Once a conversation id and context are captured, no later step changes
      them. */
  lemma {:induction false} RunKeepsCapture(setup: Setup, st: State, steps: seq<Step>)
    requires st.conversationId.Some? && st.conversationContext.Some?
    ensures Run(setup, st, steps).conversationId == st.conversationId
    ensures Run(setup, st, steps).conversationContext == st.conversationContext
    decreases |steps|
  {
    if |steps| > 0 {
      RunKeepsCapture(setup, Apply(setup, st, steps[0]), steps[1..]);
    }
  }

  /** Starting from a fresh channel, whatever the first message is, the
      conversation id and context are that message's for the rest of the run. */
  lemma FirstMessageWins(setup: Setup, msg: InboundMessage, statusText: string, rest: seq<Step>)
    ensures var final := Run(setup, Initial, [Receive(msg, statusText)] + rest);
            && final.conversationId == Some(msg.conversationId)
            && final.conversationContext == Some(BuildConversationContext(msg))
  {
    var steps := [Receive(msg, statusText)] + rest;
    assert steps[1..] == rest;
    var next := Apply(setup, Initial, steps[0]);
    RunKeepsCapture(setup, next, rest);
  }

  /** The history only grows: every run keeps the earlier history as a prefix. */
  lemma {:induction false} RunHistoryAppendOnly(setup: Setup, st: State, steps: seq<Step>)
    ensures st.history <= Run(setup, st, steps).history
    decreases |steps|
  {
    if |steps| > 0 {
      RunHistoryAppendOnly(setup, Apply(setup, st, steps[0]), steps[1..]);
    }
  }

  /** No step of the channel adds a worker to the active set; worker
      completions only ever remove ids. */
  lemma {:induction false} RunNeverAddsWorkers(setup: Setup, st: State, steps: seq<Step>)
    ensures Run(setup, st, steps).activeWorkers <= st.activeWorkers
    decreases |steps|
  {
    if |steps| > 0 {
      RunNeverAddsWorkers(setup, Apply(setup, st, steps[0]), steps[1..]);
    }
  }
}

=== FILE: inbound.dfy ===
/** Inbound chat messages as the channel sees them, and the two text builders
    applied to them: sender attribution of the user's text
    (`format_user_message`) and the conversation-context block captured from
    the first message (`build_conversation_context`). */
module Inbound {
  import opened Wrappers
  import opened Text

  /** The JSON values a message's metadata map may hold (`serde_json::Value`).
      Only the string case is ever read (`as_str`); the other variants, whose
      payloads play no part (numbers may also be floats there), stand for
      every non-string value. */
  datatype JsonValue =
    | JNull
    | JBool(b: bool)
    | JNumber(n: int)
    | JString(s: string)
    | JArray(items: seq<JsonValue>)
    | JObject(fields: seq<(string, JsonValue)>)

  /** The content of a message: plain text, or media with an optional caption
      (the attachments themselves play no part here). */
  datatype MessageContent = Text(text: string) | Media(caption: Option<string>)

  /** An inbound message. Its id, agent id and timestamp are not read by the
      logic modelled here and are left out. */
  datatype InboundMessage = InboundMessage(
    source: string,
    conversationId: string,
    senderId: string,
    content: MessageContent,
    metadata: map<string, JsonValue>)

  const SystemSource := "system"
  const DisplayNameKey := "sender_display_name"
  const GuildNameKey := "discord_guild_name"
  const ChannelNameKey := "discord_channel_name"
  /** The closing line of every conversation context (two sentences, written
      as two literals so that the verifier can inspect each). */
  const MultiUserNotice := "Multiple users may be present." + " Each message is prefixed with [username]."

  /** `metadata.get(key).and_then(|v| v.as_str())`: the value under `key` only
      when it is present and is a JSON string. */
  function MetadataStr(metadata: map<string, JsonValue>, key: string): (r: Option<string>)
    ensures r.Some? <==> key in metadata && metadata[key].JString?
    ensures r.Some? ==> metadata[key] == JString(r.value)
  {
    if key in metadata && metadata[key].JString? then Some(metadata[key].s) else None
  }

  /** The raw user text of a message: the text itself, or a media caption,
      defaulting to the empty string when the media carries none. */
  function RawText(content: MessageContent): (r: string)
    ensures content.Text? ==> r == content.text
    ensures content.Media? && content.caption.None? ==> r == ""
    ensures content.Media? && content.caption.Some? ==> r == content.caption.value
  {
    match content
    case Text(t) => t
    case Media(caption) => caption.UnwrapOr("")
  }

  /** The name a message is attributed to: the display-name metadata when it
      is a string, the sender id otherwise. */
  function DisplayName(msg: InboundMessage): (name: string)
    ensures MetadataStr(msg.metadata, DisplayNameKey).Some? ==>
              msg.metadata[DisplayNameKey] == JString(name)
    ensures MetadataStr(msg.metadata, DisplayNameKey).None? ==> name == msg.senderId
  {
    MetadataStr(msg.metadata, DisplayNameKey).UnwrapOr(msg.senderId)
  }

  /** The attribution shape `[name]: text`. */
  function Attribute(name: string, raw: string): string {
    "[" + name + "]: " + raw
  }

  /** Sender attribution of user text. Messages from the system source (the
      channel's own re-triggers) pass through as they are. */
  function FormatUserMessage(raw: string, msg: InboundMessage): (r: string)
    ensures msg.source == SystemSource ==> r == raw
    ensures msg.source != SystemSource ==>
              StartsWith(r, "[" + DisplayName(msg) + "]: ") && EndsWith(r, raw)
    ensures msg.source != SystemSource ==> |r| == |DisplayName(msg)| + |raw| + 4
  {
    if msg.source == SystemSource then raw
    else
      var r := Attribute(DisplayName(msg), raw);
      assert r == ("[" + DisplayName(msg) + "]: ") + raw;
      r
  }

  /** Reads an attributed line back into its name and text: the name runs from
      the opening bracket to the first closing bracket, which must be followed
      by a colon and a space. */
  function ParseAttribution(s: string): Option<(string, string)>
  {
    if |s| == 0 || s[0] != '[' then None
    else
      match IndexOf(']', s[1..])
      case None => None
      case Some(k) =>
        if k + 4 <= |s| && s[k + 2..k + 4] == ": " then Some((s[1..k + 1], s[k + 4..]))
        else None
  }

  /** The first occurrence of `c` is where the prefix before it is free of `c`. */
  lemma IndexOfAt(c: char, s: string, k: nat)
    requires k < |s| && s[k] == c
    requires forall j :: 0 <= j < k ==> s[j] != c
    ensures IndexOf(c, s) == Some(k)
  {
  }

  /** Attribution can be read back: for any name free of closing brackets,
      parsing `[name]: raw` recovers both the name and the text exactly. */
  lemma ParseAttributionRoundTrip(name: string, raw: string)
    requires ']' !in name
    ensures ParseAttribution(Attribute(name, raw)) == Some((name, raw))
  {
    var s := Attribute(name, raw);
    var t := s[1..];
    assert t == name + "]: " + raw;
    assert forall j :: 0 <= j < |name| ==> t[j] == name[j];
    IndexOfAt(']', t, |name|);
    assert s[|name| + 2..|name| + 4] == ": ";
    assert s[1..|name| + 1] == name;
    assert s[|name| + 4..] == raw;
  }

  /** Conversely, whatever parses is exactly an attribution of what it parses
      to, with a bracket-free name. */
  lemma ParseAttributionSound(s: string)
    ensures ParseAttribution(s).Some? ==>
              ']' !in ParseAttribution(s).value.0 &&
              s == Attribute(ParseAttribution(s).value.0, ParseAttribution(s).value.1)
  {
  }

  /** A message from a user whose display name holds no closing bracket is
      attributed recoverably: the name and the raw text can be read back. */
  lemma FormatUserMessageRecoverable(raw: string, msg: InboundMessage)
    requires msg.source != SystemSource
    requires ']' !in DisplayName(msg)
    ensures ParseAttribution(FormatUserMessage(raw, msg)) == Some((DisplayName(msg), raw))
  {
    ParseAttributionRoundTrip(DisplayName(msg), raw);
  }

  /** Without that condition attribution is ambiguous: a user whose display
      name extends another's by `]: ` and some text produces the same line as
      that other user writing the text in front of the message, so one user
      can appear to quote another. */
  lemma AttributionAmbiguous(
    raw: string, mid: string, m1: InboundMessage, m2: InboundMessage)
    requires m1.source != SystemSource && m2.source != SystemSource
    requires DisplayName(m1) == DisplayName(m2) + "]: " + mid
    ensures FormatUserMessage(raw, m1) == FormatUserMessage(mid + "]: " + raw, m2)
  {
  }

  /** The lines of the conversation context, in order: the platform, the
      server when the guild name is a string, the channel when the channel
      name is a string, and the multi-user notice. */
  function ContextLines(msg: InboundMessage): (lines: seq<string>)
    ensures |lines| ==
              2 + (if MetadataStr(msg.metadata, GuildNameKey).Some? then 1 else 0)
                + (if MetadataStr(msg.metadata, ChannelNameKey).Some? then 1 else 0)
    ensures lines[0] == "Platform: " + msg.source
    ensures MetadataStr(msg.metadata, GuildNameKey).Some? ==>
              lines[1] == "Server: " + MetadataStr(msg.metadata, GuildNameKey).value
    ensures MetadataStr(msg.metadata, ChannelNameKey).Some? ==>
              lines[|lines| - 2] == "Channel: #" + MetadataStr(msg.metadata, ChannelNameKey).value
    ensures lines[|lines| - 1] == MultiUserNotice
  {
    var guild := MetadataStr(msg.metadata, GuildNameKey);
    var channel := MetadataStr(msg.metadata, ChannelNameKey);
    ["Platform: " + msg.source]
      + (if guild.Some? then ["Server: " + guild.value] else [])
      + (if channel.Some? then ["Channel: #" + channel.value] else [])
      + [MultiUserNotice]
  }

  /** The conversation context: its lines joined by newlines. It always opens
      with the platform line and closes with the multi-user notice, with no
      trailing newline. */
  function BuildConversationContext(msg: InboundMessage): (ctx: string)
    ensures StartsWith(ctx, "Platform: " + msg.source + "\n")
    ensures EndsWith(ctx, "\n" + MultiUserNotice)
    ensures ctx[|ctx| - 1] != '\n'
  {
    var lines := ContextLines(msg);
    JoinEnds("\n", lines);
    JoinWith("\n", lines)
  }

  /** The context block can be split back into exactly its lines whenever the
      platform and the two names contain no newline. */
  lemma ContextLinesRecoverable(msg: InboundMessage)
    requires '\n' !in msg.source
    requires MetadataStr(msg.metadata, GuildNameKey).Some? ==>
               '\n' !in MetadataStr(msg.metadata, GuildNameKey).value
    requires MetadataStr(msg.metadata, ChannelNameKey).Some? ==>
               '\n' !in MetadataStr(msg.metadata, ChannelNameKey).value
    ensures SplitOn('\n', BuildConversationContext(msg)) == ContextLines(msg)
  {
    var lines := ContextLines(msg);
    var guild := MetadataStr(msg.metadata, GuildNameKey);
    var channel := MetadataStr(msg.metadata, ChannelNameKey);
    var server := if guild.Some? then ["Server: " + guild.value] else [];
    var chan := if channel.Some? then ["Channel: #" + channel.value] else [];
    assert lines == ["Platform: " + msg.source] + server + chan + [MultiUserNotice];
    assert '\n' !in MultiUserNotice;
    assert '\n' !in "Platform: " + msg.source;
    assert forall x :: x in server ==> '\n' !in x;
    assert forall x :: x in chan ==> '\n' !in x;
    assert forall x :: x in lines ==> '\n' !in x;
    assert forall i :: 0 <= i < |lines| ==> lines[i] in lines;
    SplitJoin('\n', lines);
  }
}

=== FILE: system_prompt.dfy ===
/** Assembly of the channel's system prompt for one turn: identity, channel
    prompt, conversation context and current status, each optional part
    present only when it has content. */
module SystemPrompt {
  import opened Wrappers
  import opened Text

  const SectionBreak := "\n\n"
  const ContextHeading := "## Conversation Context\n\n"
  const StatusHeading := "## Current Status\n\n"

  /** The system prompt as the channel builds it, by appending pieces in order. */
  function AssembleSystemPrompt(
    identity: string, channelPrompt: string, context: Option<string>, status: string): (p: string)
    ensures identity != "" ==> StartsWith(p, identity + SectionBreak + channelPrompt)
    ensures identity == "" ==> StartsWith(p, channelPrompt)
    ensures status != "" ==> EndsWith(p, SectionBreak + StatusHeading + status)
    ensures status == "" && context.Some? ==> EndsWith(p, SectionBreak + ContextHeading + context.value)
    ensures status == "" && context.None? ==> EndsWith(p, channelPrompt)
    ensures |p| == (if identity != "" then |identity| + 2 else 0) + |channelPrompt|
                   + (if context.Some? then 2 + |ContextHeading| + |context.value| else 0)
                   + (if status != "" then 2 + |StatusHeading| + |status| else 0)
  {
    var head := (if identity != "" then identity + SectionBreak else "") + channelPrompt;
    var contextPart := if context.Some? then SectionBreak + (ContextHeading + context.value) else "";
    var statusPart := if status != "" then SectionBreak + (StatusHeading + status) else "";
    head + contextPart + statusPart
  }

  /** An independent description of the same prompt: the list of its sections,
      in order, of which only the channel prompt is mandatory. */
  function PromptSections(
    identity: string, channelPrompt: string, context: Option<string>, status: string): (secs: seq<string>)
    ensures |secs| == 1 + (if identity != "" then 1 else 0) + (if context.Some? then 1 else 0)
                        + (if status != "" then 1 else 0)
    ensures secs[if identity != "" then 1 else 0] == channelPrompt
    ensures identity != "" ==> secs[0] == identity
    ensures status != "" ==> secs[|secs| - 1] == StatusHeading + status
    ensures context.Some? ==>
              secs[if identity != "" then 2 else 1] == ContextHeading + context.value
  {
    (if identity != "" then [identity] else [])
      + [channelPrompt]
      + (if context.Some? then [ContextHeading + context.value] else [])
      + (if status != "" then [StatusHeading + status] else [])
  }

  /** Appending an optional section to a non-empty section list adds one
      separator and the section when it is present, and nothing otherwise. */
  lemma JoinOptionalSection(parts: seq<string>, present: bool, section: string)
    requires |parts| >= 1
    ensures JoinWith(SectionBreak, parts + (if present then [section] else []))
            == JoinWith(SectionBreak, parts) + (if present then SectionBreak + section else "")
  {
    if present {
      JoinSnoc(SectionBreak, parts, section);
    } else {
      assert parts + [] == parts;
    }
  }

  /** The assembled prompt is exactly its sections separated by blank lines:
      no section is duplicated, dropped, reordered or left with a dangling
      separator. */
  lemma AssembleIsSectionJoin(
    identity: string, channelPrompt: string, context: Option<string>, status: string)
    ensures AssembleSystemPrompt(identity, channelPrompt, context, status)
            == JoinWith(SectionBreak, PromptSections(identity, channelPrompt, context, status))
  {
    var head := (if identity != "" then [identity] else []) + [channelPrompt];
    var headText := (if identity != "" then identity + SectionBreak else "") + channelPrompt;
    assert JoinWith(SectionBreak, head) == headText by {
      if identity != "" {
        JoinCons(SectionBreak, identity, [channelPrompt]);
      } else {
        assert head == [channelPrompt];
      }
    }
    var contextSection := if context.Some? then ContextHeading + context.value else "";
    var withContext := head + (if context.Some? then [contextSection] else []);
    JoinOptionalSection(head, context.Some?, contextSection);
    var statusSection := StatusHeading + status;
    JoinOptionalSection(withContext, status != "", statusSection);
    assert withContext + (if status != "" then [statusSection] else [])
           == PromptSections(identity, channelPrompt, context, status);
  }
}

=== FILE: text.dfy ===
/** `join` over a vector of strings, as the conversation context is built
    (src/agent/channel.rs:511), plus split and index helpers that state its
    inverses. Strings are `seq<char>`. */
module Text {
  import opened Wrappers

  predicate StartsWith(s: string, prefix: string) {
    |prefix| <= |s| && s[..|prefix|] == prefix
  }

  predicate EndsWith(s: string, suffix: string) {
    |suffix| <= |s| && s[|s| - |suffix|..] == suffix
  }

  /** `parts.join(sep)`: the parts in order with `sep` between consecutive
      parts and nowhere else. */
  function JoinWith(sep: string, parts: seq<string>): string
    decreases |parts|
  {
    if |parts| == 0 then ""
    else if |parts| == 1 then parts[0]
    else parts[0] + sep + JoinWith(sep, parts[1..])
  }

  /** Splitting on one character: the maximal runs between separators,
      including empty ones; the empty string splits to `[""]`. */
  function SplitOn(sep: char, s: string): (parts: seq<string>)
    ensures |parts| >= 1
    ensures forall i :: 0 <= i < |parts| ==> sep !in parts[i]
    decreases |s|
  {
    if |s| == 0 then [""]
    else if s[0] == sep then [""] + SplitOn(sep, s[1..])
    else
      var rest := SplitOn(sep, s[1..]);
      [[s[0]] + rest[0]] + rest[1..]
  }

  /** The character index of the first occurrence of `c`, if any. */
  function IndexOf(c: char, s: string): (r: Option<nat>)
    ensures r.Some? ==> r.value < |s| && s[r.value] == c
    ensures r.Some? ==> forall j :: 0 <= j < r.value ==> s[j] != c
    ensures r.None? <==> c !in s
    decreases |s|
  {
    if |s| == 0 then None
    else if s[0] == c then Some(0)
    else
      match IndexOf(c, s[1..])
      case None => None
      case Some(k) => Some(k + 1)
  }

  /** Prepending one part in front of a non-empty list adds exactly one
      separator. */
  lemma JoinCons(sep: string, a: string, rest: seq<string>)
    requires |rest| >= 1
    ensures JoinWith(sep, [a] + rest) == a + sep + JoinWith(sep, rest)
  {
  }

  /** Appending one part behind a non-empty list adds exactly one separator. */
  lemma {:induction false} JoinSnoc(sep: string, parts: seq<string>, b: string)
    requires |parts| >= 1
    ensures JoinWith(sep, parts + [b]) == JoinWith(sep, parts) + sep + b
    decreases |parts|
  {
    if |parts| == 1 {
      assert parts + [b] == [parts[0]] + [b];
      JoinCons(sep, parts[0], [b]);
    } else {
      assert parts + [b] == [parts[0]] + (parts[1..] + [b]);
      JoinCons(sep, parts[0], parts[1..] + [b]);
      JoinSnoc(sep, parts[1..], b);
      assert parts == [parts[0]] + parts[1..];
      JoinCons(sep, parts[0], parts[1..]);
    }
  }

  /** A joined list of two or more parts begins with its first part and a
      separator and ends with a separator and its last part. */
  lemma {:induction false} JoinEnds(sep: string, parts: seq<string>)
    requires |parts| >= 2
    ensures StartsWith(JoinWith(sep, parts), parts[0] + sep)
    ensures EndsWith(JoinWith(sep, parts), sep + parts[|parts| - 1])
  {
    var init := parts[..|parts| - 1];
    assert parts == init + [parts[|parts| - 1]];
    JoinSnoc(sep, init, parts[|parts| - 1]);
    var j := JoinWith(sep, parts);
    assert j == JoinWith(sep, init) + (sep + parts[|parts| - 1]);
    assert j == parts[0] + sep + JoinWith(sep, parts[1..]);
    assert j[..|parts[0] + sep|] == parts[0] + sep;
  }

  /** A string without the separator splits into itself alone. */
  lemma {:induction false} SplitWithoutSeparator(sep: char, a: string)
    requires sep !in a
    ensures SplitOn(sep, a) == [a]
    decreases |a|
  {
    if |a| > 0 {
      SplitWithoutSeparator(sep, a[1..]);
      assert [a[0]] + a[1..] == a;
    }
  }

  /** Splitting a string that begins with a separator-free run `a` followed by
      one separator yields `a` followed by the split of the remainder. */
  lemma {:induction false} SplitAfterRun(sep: char, a: string, rest: string)
    requires sep !in a
    ensures SplitOn(sep, a + [sep] + rest) == [a] + SplitOn(sep, rest)
    decreases |a|
  {
    var s := a + [sep] + rest;
    if |a| == 0 {
      assert s == [sep] + rest;
      assert s[1..] == rest;
    } else {
      assert s[0] == a[0];
      assert s[1..] == a[1..] + [sep] + rest;
      SplitAfterRun(sep, a[1..], rest);
      assert [a[0]] + a[1..] == a;
    }
  }

  /** Round trip: splitting a join on a single-character separator
      gives back the parts, provided no part contains the separator. */
  lemma {:induction false} SplitJoin(sep: char, parts: seq<string>)
    requires |parts| >= 1
    requires forall i :: 0 <= i < |parts| ==> sep !in parts[i]
    ensures SplitOn(sep, JoinWith([sep], parts)) == parts
    decreases |parts|
  {
    if |parts| == 1 {
      SplitWithoutSeparator(sep, parts[0]);
    } else {
      var rest := parts[1..];
      assert JoinWith([sep], parts) == parts[0] + [sep] + JoinWith([sep], rest);
      SplitAfterRun(sep, parts[0], JoinWith([sep], rest));
      SplitJoin(sep, rest);
      assert parts == [parts[0]] + rest;
    }
  }
}

=== FILE: wrappers.dfy ===
/** Rust's `Option` and `Result`. */
module Wrappers {

  datatype Option<+T> = None | Some(value: T) {

    /** Rust's `unwrap_or`: the wrapped value, or `default` when absent. */
    function UnwrapOr(default: T): T {
      match this
      case Some(v) => v
      case None => default
    }
  }

  datatype Result<+T, +E> = Ok(value: T) | Err(error: E)
}
